=== FILE: README.md ===
# Computational graph: a verified model of the circuit builder and its evaluators

The repository implements a small arithmetic-circuit IR over unsigned 32-bit
integers twice: once in Go (`graph-go/graph/graph.go`) and once in Rust
(`graph-rs/src/lib.rs`). A `Builder` issues node IDs 0, 1, 2, … for Input,
Constant, Add, Mul and Hint nodes and records equality constraints. An
evaluator (`FillNodes` / `fill_nodes`) checks that every Input node has a
supplied value and then computes every node: a Constant gives its literal,
Add and Mul give the wrapping 32-bit sum or product of their parents, and a
Hint applies its stored computation to the values of exactly its
dependencies. A checker (`CheckConstraints` / `check_constraints`) reports
whether every constrained pair is valued and equal.

The two evaluators differ:

- The Go evaluator relaxes to a fixed point. It sweeps the node map in Go's
  unspecified map order, computing every node whose operands are valued,
  until a sweep makes no progress. It then fails if a node is still
  unvalued. Supplied values are never replaced, even for non-Input IDs.
- The Rust evaluator makes one pass in creation order. It fails as soon as
  an operand has no value. Constant, Add, Mul and Hint results overwrite any
  supplied entry for the same ID.

## Files

- `circuit.dfy`, module `Circuit`. Holds the shared vocabulary:
  - the `U32` type with explicit wrapping addition and multiplication;
  - `NodeType` (a Hint stores its computation as a function value);
  - the local evaluation rule `Ready`/`Step`;
  - the reference semantics `Eval(g, pinned, id)`, defined by recursion on
    the ID. It is well founded on `Topological` (ID-ordered) graphs, where each
    parent or dependency has a smaller ID; that is the shape the builder
    produces when every handle it is given is one of its own earlier nodes.
  - Lemmas: on an ID-ordered graph whose Input nodes have values, a
    locally consistent, complete valuation is unique and equals the
    reference values (`ConsistentIsEval`, `FillIsResolution`). On such a
    graph a valuation from which nothing more can be computed is already
    complete (`StuckIsResolved`). The two ways of treating supplied values agree when
    the supplied map names only Input nodes (`PinsAgree`) and can differ
    otherwise (`PinsDiffer`).
- `go_graph.dfy`, module `GoGraph`. A class `Builder` with the Go fields
  `Nodes`, `Constraints` and `NextID`, and the methods listed below. In
  `FillNodes`, each sweep picks the next unvisited key with `:|`, so every
  visiting order is covered. The result for an ID-ordered graph is proved
  equal to the reference values, so it does not depend on the order.
- `rust_graph.dfy`, module `RustGraph`. A class `Builder` with `nodes`,
  `constraints`, `next_id` and `next_hint_id`. `fill_nodes` is split into
  its validation pass (`FindMissingInput`), the in-order pass
  (`FillInOrder`) and one iteration of that pass (`FillNode`).
- `test_circuits.dfy`, module `TestCircuits`. The unit-test circuits of both
  versions, built with each builder and evaluated with each evaluator:
  - x*x + x + 5 at x = 3 gives 17;
  - (a + 1) / 8 by a hint at a = 15 gives 2, and the constraint holds;
  - 0xFFFFFFFF + 2 wraps to 1;
  - a supplied value on a Constant node shows how the two evaluators part.

The reference semantics takes a map of pinned values. The Go evaluator is
proved equal to `Eval` with the supplied map as the pins. The Rust
evaluator is proved equal to `Eval` with only the supplied entries of Input
nodes as the pins (`InputPins`).

Supplied entries for non-Input nodes are handled differently by the two
versions. The Rust code overwrites them. The Go code keeps them: it seeds the value map with every supplied entry and skips any node
that already has a value (graph-go/graph/graph.go:167-169, 177-179). The
model follows the code: `PinsAgree` proves the two coincide when only Input
nodes are supplied, and `TestCircuits.SuppliedConstant` exhibits a Constant
node 5 supplied with 7, which yields 7 in Go and 5 in Rust.

## Model

| member | source | states |
|---|---|---|
| Circuit.WrappingAdd | graph-rs/src/lib.rs:245 | The sum is exact below 2^32 and is reduced by exactly 2^32 on overflow (Rust `wrapping_add`; Go's `a + b` on `uint32` at graph-go/graph/graph.go:191 is the same) |
| Circuit.WrappingMul | graph-rs/src/lib.rs:254 | The product is exact when it fits in 32 bits (Rust `wrapping_mul`; Go `a * b` on `uint32`) |
| Circuit.TopologicalAdd | graph-go/graph/graph.go:93-105 | Adding a node whose parents or dependencies are earlier nodes keeps every reference pointing to a smaller, existing ID |
| Circuit.StepExtends | graph-go/graph/graph.go:184-218 | Once a node's operands are valued, adding more values keeps it computable with the same result, so the sweep order cannot change a node's value |
| Circuit.ExtendConsistent | graph-go/graph/graph.go:185-217 | Storing a newly computed node's value keeps every earlier entry and keeps every computed node equal to its local rule |
| Circuit.ConsistentIsEval | graph-go/graph/graph.go:172-226 | On an ID-ordered graph, any complete valuation that keeps the pinned values and is locally consistent holds the reference value at every node |
| Circuit.Eval | graph-go/graph/graph.go:166-219 | The reference value of a node: a supplied (pinned) or Input node takes its supplied value, an unpinned Constant its literal, and any other node the local rule over its operands' reference values (tied to `Step` by `ResolutionStep`) |
| Circuit.Resolution | graph-go/graph/graph.go:228-235 | The reference value of every node: its keys are exactly the graph's nodes, and a pinned node keeps its pinned value |
| Circuit.Step | graph-go/graph/graph.go:181-219 | The local rule of both evaluators' per-node `switch`/`match`: a Constant gives its literal, Add and Mul the sum and product of the parents' values reduced modulo 2^32 (graph-rs/src/lib.rs:236-283 is the same) |
| Circuit.DepValues | graph-go/graph/graph.go:203-212 | The map handed to a hint computation holds exactly the dependencies' IDs, each with its current value |
| Circuit.ReadyRefs | graph-rs/src/lib.rs:243-276 | A non-Input node is computable iff every parent or dependency has a value; otherwise some referenced node has none, which is the condition under which Rust reports a missing operand or dependency |
| Circuit.ResolutionIsConsistent | graph-go/graph/graph.go:181-218 | The reference values over the pinned map keep the pins and satisfy the local rule at every unpinned node |
| Circuit.ResolutionStep | graph-rs/src/lib.rs:236-282 | At an unpinned node the local rule, applied to the reference values, is ready and yields that node's reference value |
| Circuit.FillIsResolution | graph-go/graph/graph.go:228-235 | A complete, pin-keeping, locally consistent valuation whose keys are the pins and the nodes is the pinned map overlaid with the reference values |
| Circuit.StuckIsResolved | graph-go/graph/graph.go:222-233 | On an ID-ordered graph whose Input nodes are valued, a valuation where no unvalued node is computable already values every node, so the "unable to compute" error cannot occur |
| Circuit.PinsAgree | graph-rs/src/lib.rs:240-242 | When supplied entries name only Input nodes, keeping them (Go) and overwriting non-Input ones (Rust) give the same value at every node |
| Circuit.ResolutionsAgree | graph-rs/src/lib.rs:229-242 | Whole-map form: both evaluators' results coincide when only Input nodes are supplied |
| Circuit.PinsDiffer | graph-go/graph/graph.go:177-179 | A Constant node 5 supplied with 7 evaluates to 7 when supplied values are kept and to 5 when they are overwritten |
| Circuit.EvalSingleDepHint | graph-go/graph/graph.go:201-217 | A Hint with one dependency receives exactly the one-entry map of that dependency's value |
| Circuit.SatisfiedAppend | graph-go/graph/graph.go:123-128 | After appending a constraint, the list holds iff the old list holds and the new pair is valued and equal |
| Circuit.GatherDeps | graph-go/graph/graph.go:203-212 | Succeeds iff every dependency has a value, and then returns the sub-map of exactly the dependencies |
| GoGraph.Builder.constructor | graph-go/graph/graph.go:55-61 | An empty node map, no constraints, next ID 0 |
| GoGraph.Builder.Store | graph-go/graph/graph.go:64-75 | Issues the old `NextID`, increments it by one and stores the node under it; keeps the key set equal to [0, NextID) and the graph ID-ordered |
| GoGraph.Builder.Init | graph-go/graph/graph.go:64-75 | Stores an Input node under the old `NextID`, which goes up by one; constraints unchanged; key-set invariant and ID order kept |
| GoGraph.Builder.Constant | graph-go/graph/graph.go:78-90 | Stores a Constant node under the old `NextID`, which goes up by one; key-set invariant and ID order kept |
| GoGraph.Builder.Add | graph-go/graph/graph.go:93-105 | Stores an Add node with the given parents in order; ID order kept when the parents are earlier nodes |
| GoGraph.Builder.Mul | graph-go/graph/graph.go:108-120 | Stores a Mul node with the given parents in order; ID order kept when the parents are earlier nodes |
| GoGraph.Builder.AssertEqual | graph-go/graph/graph.go:123-128 | Appends exactly one constraint; nodes and `NextID` unchanged; the new list is satisfied iff the old one is and the pair holds |
| GoGraph.Builder.Hint | graph-go/graph/graph.go:131-150 | Stores a Hint node with the dependency IDs in the given order and the given computation |
| GoGraph.Builder.FindMissingInput | graph-go/graph/graph.go:154-161 | Finds an Input node without a supplied value iff there is one |
| GoGraph.Builder.Compute | graph-go/graph/graph.go:181-219 | Produces a value iff the node's operands are all valued, and then exactly the local rule's value |
| Circuit.ReadyMono | graph-go/graph/graph.go:184-218 | A node computable from some values stays computable once more nodes have values, so a stuck valuation holding the sweep's values keeps holding them |
| GoGraph.Builder.Sweep | graph-go/graph/graph.go:173-225 | One sweep, in any order, keeps the supplied values and local consistency and only adds entries; every node it values is valued in every stuck valuation that holds the supplied IDs; with progress it values more nodes, without progress no unvalued node is computable |
| GoGraph.RecordStep | graph-go/graph/graph.go:184-218 | Storing one computed node keeps all sweep invariants and leaves one fewer node unvalued |
| GoGraph.Builder.FillNodes | graph-go/graph/graph.go:153-236 | Fails with a missing Input iff one is missing; otherwise the only error is "unable to compute", and it comes only when a locally consistent valuation keeping the supplied values is stuck with a node unvalued; a success keeps all supplied values and values every node, and happens only when every stuck valuation that holds the supplied IDs values every node, so a node that refers to itself makes it fail; on an ID-ordered graph it succeeds with exactly the reference values |
| GoGraph.Builder.CheckConstraints | graph-go/graph/graph.go:239-250 | True iff every constraint has both sides valued and equal; changes nothing |
| RustGraph.HintCount | graph-rs/src/lib.rs:191-192 | The number of Hint nodes, zero iff there are none; the model's account of `next_hint_id` |
| RustGraph.HintCountPush | graph-rs/src/lib.rs:191-192 | Pushing a node counts one more hint exactly when it is a Hint node |
| RustGraph.Builder.constructor | graph-rs/src/lib.rs:109-116 | No nodes, no constraints, both counters 0 |
| RustGraph.Builder.Push | graph-rs/src/lib.rs:119-130 | The new node's ID is the old `next_id`, which goes up by one; the node is pushed so `nodes[i].id == i` keeps holding |
| RustGraph.Builder.Init | graph-rs/src/lib.rs:119-130 | Pushes an Input node with the old `next_id`, which goes up by one; `next_hint_id` and constraints unchanged |
| RustGraph.Builder.Constant | graph-rs/src/lib.rs:133-144 | Pushes a Constant node with the old `next_id`, which goes up by one |
| RustGraph.Builder.Add | graph-rs/src/lib.rs:147-158 | Pushes an Add node over the two handles' IDs in order; ID order kept when they are earlier nodes |
| RustGraph.Builder.Mul | graph-rs/src/lib.rs:161-172 | Pushes a Mul node over the two handles' IDs in order; ID order kept when they are earlier nodes |
| RustGraph.Builder.AssertEqual | graph-rs/src/lib.rs:175-180 | Pushes exactly one constraint; nodes and both counters unchanged |
| RustGraph.Builder.Hint | graph-rs/src/lib.rs:184-208 | Pushes a Hint node whose dependency IDs are the handles' IDs in the given order; `next_id` and `next_hint_id` each go up by one |
| RustGraph.Builder.FindMissingInput | graph-rs/src/lib.rs:218-224 | Returns the first Input node in creation order without a supplied value, or none iff every Input node is supplied |
| RustGraph.Builder.FillNodes | graph-rs/src/lib.rs:211-287 | Fails with the first missing Input iff one is missing; other errors name an Add/Mul or Hint node one of whose parents or dependencies has no supplied value and an ID not below the failing node's, while every earlier node refers only to supplied IDs or earlier nodes; a success values every node, every node refers only to supplied IDs or earlier nodes, and on any graph each node holds what the pass stored for it (`PassValues`); on an ID-ordered graph it succeeds with the supplied map overlaid with the reference values, where only Input entries are kept |
| RustGraph.Builder.FillInOrder | graph-rs/src/lib.rs:234-286 | The in-order pass: errors only at an Add/Mul or Hint node one of whose parents or dependencies has no supplied value and an ID not below the failing node's, that is, has no value yet, and every earlier node refers only to supplied IDs or earlier nodes, so the error is at the first node whose operand is unvalued; a success has keys the supplied IDs plus all nodes and happens only when every node refers only to supplied IDs or earlier nodes; on any graph a success leaves supplied entries beyond the nodes untouched, keeps each Input node's supplied value, and gives every other node the local rule's value over the map the pass held when it reached that node, with supplied entries for later IDs still in place; on an ID-ordered graph it never errs and yields the reference values |
| RustGraph.Builder.FillNode | graph-rs/src/lib.rs:236-283 | An Input node leaves the map unchanged; any other node with valued operands is stored with the local rule's value, overwriting; otherwise the Add/Mul or Hint error names the node |
| RustGraph.ResolvedNext | graph-rs/src/lib.rs:235-284 | On an ID-ordered graph, when node i is reached every operand is valued and the local rule yields its reference value |
| RustGraph.ResolvedStep | graph-rs/src/lib.rs:235-284 | One iteration of the in-order pass extends the resolved prefix by one node |
| RustGraph.PassedAtKept | graph-rs/src/lib.rs:235-284 | A node the pass has got past keeps its stored value and its snapshot when later iterations write only at later IDs |
| RustGraph.PassedAtCursor | graph-rs/src/lib.rs:236-283 | The node at the cursor, handled as `fill_nodes` handles it, holds the local rule's value over the map the pass held on reaching it, or its supplied value for an Input node |
| RustGraph.PassStep | graph-rs/src/lib.rs:235-284 | One iteration of the pass, on any graph, extends what the pass has stored by the node at the cursor |
| RustGraph.PassRefs | graph-rs/src/lib.rs:243-276 | Every node the pass has got past refers only to supplied IDs or to earlier nodes |
| RustGraph.ResolvedBelowAll | graph-rs/src/lib.rs:284-286 | After the last node, the map is the supplied map overlaid with the reference values |
| RustGraph.Builder.CheckConstraints | graph-rs/src/lib.rs:290-306 | True iff every constraint has both sides valued and equal; false at the first one that is not |
| TestCircuits.QuadraticTopological | graph-go/graph/graph_test.go:13-17 | The x*x + x + 5 circuit only refers to earlier nodes |
| TestCircuits.QuadraticEval | graph-go/graph/graph_test.go:29-32 | Its result node is 17 at x = 3 |
| TestCircuits.GoBuildQuadratic | graph-go/graph/graph_test.go:10-17 | The Go builder produces exactly that circuit |
| TestCircuits.GoQuadratic | graph-go/graph/graph_test.go:8-37 | The Go evaluator gives 17 and the constraints hold |
| TestCircuits.RustBuildQuadratic | graph-rs/src/lib.rs:316-331 | The Rust builder produces exactly that circuit |
| TestCircuits.RustQuadratic | graph-rs/src/lib.rs:314-343 | The Rust evaluator gives 17 at node 4 and the constraints hold |
| TestCircuits.DivisionTopological | graph-go/graph/graph_test.go:44-55 | The division circuit only refers to earlier nodes |
| TestCircuits.DivisionEval | graph-go/graph/graph_test.go:49-56 | For every a below 2^32 - 1: b = a + 1, the hint gives (a + 1) / 8, c * 8 rounds b down to a multiple of 8, and the constraint holds iff 8 divides a + 1 |
| TestCircuits.DivisionHintEval | graph-go/graph/graph_test.go:50-55 | The hint and product nodes' values given b |
| TestCircuits.DivisionValues | graph-go/graph/graph_test.go:68-71 | The filled values for a = 15 (c = 2, c * 8 = b = 16) and a = 1 (c = 0, c * 8 = 0, b = 2) |
| TestCircuits.GoBuildDivision | graph-go/graph/graph_test.go:41-56 | The Go builder produces exactly the division circuit and the constraint c * 8 == b |
| TestCircuits.GoDivision | graph-go/graph/graph_test.go:39-76 | The Go evaluator gives c = 2 at a = 15 and the constraint holds |
| TestCircuits.GoDivisionWrongHint | graph-go/graph/graph_test.go:54-56 | At a = 1 evaluation succeeds with c = 0 and only the constraint check fails, so a hint is trusted only through its constraint |
| TestCircuits.RustBuildDivision | graph-rs/src/lib.rs:348-375 | The Rust builder produces exactly the division circuit and its constraint |
| TestCircuits.RustDivision | graph-rs/src/lib.rs:346-386 | The Rust evaluator gives 2 at node 4 for a = 15 and the constraint holds |
| TestCircuits.WrapEval | graph-rs/src/lib.rs:243-245 | 0xFFFFFFFF + 2 evaluates to 1 |
| TestCircuits.RustBuildWrap | graph-rs/src/lib.rs:133-158 | The Rust builder produces the two constants and their sum |
| TestCircuits.RustWrapAround | graph-rs/src/lib.rs:243-245 | The Rust evaluator gives 1 for 0xFFFFFFFF + 2 |
| TestCircuits.SuppliedConstant | graph-rs/src/lib.rs:240-242 | A Constant node 5 supplied with 7: the Go evaluator returns 7, the Rust evaluator 5 |
| TestCircuits.GoSelfReference | graph-go/graph/graph.go:222-231 | An Add node whose parent handle names the node itself (a handle from another builder) makes the Go evaluator fail with "unable to compute" |
| TestCircuits.RustBuildForward | graph-rs/src/lib.rs:133-158 | The Rust builder, given a handle naming ID 1, stores `Add(1, 1)` at 0 and `Constant(3)` at 1 |
| TestCircuits.ForwardValues | graph-rs/src/lib.rs:236-246 | On that graph with 5 supplied for node 1, the pass leaves 10 at node 0 and 3 at node 1 |
| TestCircuits.RustForwardReference | graph-rs/src/lib.rs:240-246 | The Rust evaluator reads the supplied 5 for the later node, giving 10, and then overwrites that entry with 3 |

## Left out

- Error messages are modelled as the `EvalError` datatype, not as strings.
- Debug output is not modelled: the `println!` calls in `fill_nodes` and the Go and Rust `Debug`/`Display`/`Clone` impls.
- Rust `Arc`, `Box`, `Send` and `Sync` are not modelled. A hint computation is a pure total Dafny function value.
- The numeric hint-function ID in Rust is only used for debug output. It is not stored. `Valid` instead ties `next_hint_id` to the number of Hint nodes.
- The Go `Node.Value` field is never used and is not modelled.
- Go returns `*Node` pointers and Rust returns cloned `Node` values. The model's Go handle is the node's ID and its Rust handle is a `Node(id, kind)` value. Aliasing of Go node pointers is not modelled.
- Node IDs are `nat`. Go's `NodeID` is a signed `int`, so negative keys in a supplied map are not modelled.
- Overflow of the ID counters (`int`, `usize`) is not modelled.
- Hash-map iteration order is modelled only in the Go sweep and the Go validation loop, as an arbitrary choice of the next key. The Rust validation and evaluation loops follow the node vector.
- A missing Rust hint dependency makes `FillNode` stop at the first one. The source keeps scanning but reaches the same error; only its printing differs.
- Square-root hints are not modelled, because they use floating point: the third unit test in each version and the example drivers.
- The example drivers `graph-rs/src/main.rs` and `go/main.go` are not part of this model.
- GoGraph.Builder.FillNodes: on a graph that is not ID-ordered (reachable through a handle from another builder or by writing the exported `Nodes` field), success and failure are characterised exactly, but a successful result is stated only as complete, locally consistent and keeping the supplied values; it is not proved to be the one valuation the relaxation derives.
- Circuit.WrappingMul: the contract states only the case where the product fits in 32 bits. The overflow case is the definition's own reduction modulo 2^32.
- The ID-order guarantee of the Add, Mul and Hint builder methods is conditional on their operands being earlier nodes of the same builder. The source takes any handle and does not check this.

=== FILE: circuit.dfy ===
/** Shared vocabulary of the arithmetic-circuit IR: node kinds, value maps,
    the local evaluation rule, and a recursive reference semantics against
    which both evaluators (the Go fixed-point one and the Rust single-pass
    one) are proved. */
module Circuit {

  /** Node handles are issued from 0 upwards. */
  type NodeId = nat

  /** 2^32: unsigned 32-bit arithmetic is arithmetic modulo this. */
  const MODULUS: nat := 0x1_0000_0000

  /** An unsigned 32-bit integer. */
  type U32 = x: int | 0 <= x < MODULUS

  /** Addition with wrap-around on overflow. */
  function WrappingAdd(x: U32, y: U32): (r: U32)
    ensures x + y < MODULUS ==> r == x + y
    ensures x + y >= MODULUS ==> r == x + y - MODULUS
  {
    (x + y) % MODULUS
  }

  /** Multiplication keeping the low 32 bits of the product. */
  function WrappingMul(x: U32, y: U32): (r: U32)
    ensures x * y < MODULUS ==> r == x * y
  {
    (x * y) % MODULUS
  }

  /** A (partial) assignment of unsigned 32-bit values to node IDs. */
  type Valuation = map<NodeId, U32>

  /** A hint computation: a pure total function of the values of its
      declared dependencies. */
  type HintFn = Valuation -> U32

  /** The five node kinds. Add and Mul hold their two parents in order;
      a Hint holds its ordered dependency list and its computation. */
  datatype NodeType =
    | Input
    | Constant(value: U32)
    | Add(left: NodeId, right: NodeId)
    | Mul(left: NodeId, right: NodeId)
    | Hint(deps: seq<NodeId>, func: HintFn)

  /** The node store: node kind by node ID. */
  type Graph = map<NodeId, NodeType>

  /** An equality constraint between two nodes. */
  datatype Constraint = Constraint(left: NodeId, right: NodeId)

  /** Why an evaluation failed. Go reports MissingInput and Unresolvable;
      Rust reports MissingInput, MissingOperands (Add or Mul) and
      MissingDependencies (Hint). */
  datatype EvalError =
    | MissingInput(id: NodeId)
    | Unresolvable
    | MissingOperands(id: NodeId)
    | MissingDependencies(id: NodeId)

  datatype Result<T> = Ok(value: T) | Err(error: EvalError)

  datatype Option<T> = None | Some(value: T)

  // ---------------------------------------------------------------------
  // Graph shape

  /** Every node that `n` refers to lies strictly below `id` and is in `g`. */
  ghost predicate Below(n: NodeType, id: NodeId, g: Graph)
  {
    match n
    case Input => true
    case Constant(_) => true
    case Add(a, b) => a < id && a in g && b < id && b in g
    case Mul(a, b) => a < id && a in g && b < id && b in g
    case Hint(deps, _) => forall d :: d in deps ==> d < id && d in g
  }

  /** `o` is one of the nodes a node of kind `n` refers to: a parent of an
      Add or Mul node, or a dependency of a Hint node. */
  predicate Refs(n: NodeType, o: NodeId)
  {
    match n
    case Input => false
    case Constant(_) => false
    case Add(a, b) => o == a || o == b
    case Mul(a, b) => o == a || o == b
    case Hint(deps, _) => o in deps
  }

  /** The shape every builder-made graph has: parents and hint dependencies
      always carry smaller IDs, so the dependency relation is acyclic. */
  ghost predicate Topological(g: Graph)
  {
    forall id :: id in g ==> Below(g[id], id, g)
  }

  /** References into a graph stay valid when the graph grows. */
  lemma BelowGrows(n: NodeType, id: NodeId, g: Graph, h: Graph)
    requires Below(n, id, g) && g.Keys <= h.Keys
    ensures Below(n, id, h)
  {
  }

  /** Adding a node whose references all point to earlier nodes of a
      topological graph keeps it topological. */
  lemma TopologicalAdd(g: Graph, id: NodeId, n: NodeType)
    requires Topological(g) && Below(n, id, g)
    ensures Topological(g[id := n])
  {
    var h := g[id := n];
    forall k | k in h ensures Below(h[k], k, h) {
      if k == id {
        BelowGrows(n, id, g, h);
      } else {
        BelowGrows(g[k], k, g, h);
      }
    }
  }

  /** Every Input node of `g` has a value in `v`. */
  ghost predicate InputsSupplied(g: Graph, v: Valuation)
  {
    forall id :: id in g && g[id].Input? ==> id in v
  }

  /** The entries of `inputs` that belong to Input nodes of `g`. */
  function InputPins(g: Graph, inputs: Valuation): Valuation
  {
    map id | id in inputs && id in g && g[id].Input? :: inputs[id]
  }

  // ---------------------------------------------------------------------
  // The local evaluation rule

  /** Node `n` can be computed from `v`: its operands all have values.
      An Input node is never computed. */
  predicate Ready(n: NodeType, v: Valuation)
  {
    match n
    case Input => false
    case Constant(_) => true
    case Add(a, b) => a in v && b in v
    case Mul(a, b) => a in v && b in v
    case Hint(deps, _) => forall d :: d in deps ==> d in v
  }

  /** A node other than an Input node can be computed exactly when every
      node it refers to has a value; otherwise some referenced node has none. */
  lemma ReadyRefs(n: NodeType, v: Valuation)
    ensures Ready(n, v) <==> !n.Input? && forall o :: Refs(n, o) ==> o in v
    ensures !n.Input? && !Ready(n, v) ==> exists o :: Refs(n, o) && o !in v
  {
  }

  /** The sub-map of `v` holding exactly the dependencies `deps`. */
  function DepValues(deps: seq<NodeId>, v: Valuation): (r: Valuation)
    requires forall d :: d in deps ==> d in v
    ensures forall d :: d in r <==> d in deps
    ensures forall d :: d in r ==> r[d] == v[d]
  {
    map d | d in deps :: v[d]
  }

  /** The value a ready node takes: the literal, the wrapping 32-bit sum or
      product of its parents, or the hint computation applied to exactly its
      dependencies' values. */
  function Step(n: NodeType, v: Valuation): (r: U32)
    requires Ready(n, v)
    ensures n.Constant? ==> r == n.value
    ensures n.Add? ==> r == (v[n.left] + v[n.right]) % MODULUS
    ensures n.Mul? ==> r == (v[n.left] * v[n.right]) % MODULUS
  {
    match n
    case Constant(c) => c
    case Add(a, b) => WrappingAdd(v[a], v[b])
    case Mul(a, b) => WrappingMul(v[a], v[b])
    case Hint(deps, f) => f(DepValues(deps, v))
  }

  // ---------------------------------------------------------------------
  // Reference semantics

  /** The value of node `id`: a pinned node takes its pinned value; any other
      node is computed from the values of the nodes it refers to. Well-founded
      because those all have smaller IDs. */
  function Eval(g: Graph, pinned: Valuation, id: NodeId): (r: U32)
    requires Topological(g) && InputsSupplied(g, pinned) && id in g
    ensures id in pinned || g[id].Input? ==> r == pinned[id]
    ensures id !in pinned && g[id].Constant? ==> r == g[id].value
    decreases id
  {
    if id in pinned || g[id].Input? then pinned[id]
    else
      assert Below(g[id], id, g);
      match g[id]
      case Constant(c) => c
      case Add(a, b) => WrappingAdd(Eval(g, pinned, a), Eval(g, pinned, b))
      case Mul(a, b) => WrappingMul(Eval(g, pinned, a), Eval(g, pinned, b))
      case Hint(deps, f) => f(map d | d in deps :: Eval(g, pinned, d))
  }

  /** The value of every node of `g`. */
  function Resolution(g: Graph, pinned: Valuation): (r: Valuation)
    requires Topological(g) && InputsSupplied(g, pinned)
    ensures r.Keys == g.Keys
    ensures forall id :: id in r && id in pinned ==> r[id] == pinned[id]
  {
    map id | id in g :: Eval(g, pinned, id)
  }

  // ---------------------------------------------------------------------
  // Properties of a valuation produced by an evaluator

  /** `w` extends `v`: every entry of `v` is in `w` with the same value. */
  ghost predicate Extends(v: Valuation, w: Valuation)
  {
    forall k :: k in v ==> k in w && w[k] == v[k]
  }

  /** Extension is transitive. */
  lemma ExtendsTrans(u: Valuation, v: Valuation, w: Valuation)
    requires Extends(u, v) && Extends(v, w)
    ensures Extends(u, w)
  {
  }

  /** Every valued node of `g` that is not pinned holds exactly what the
      local rule computes from `v`. */
  ghost predicate LocallyConsistent(g: Graph, pinned: Valuation, v: Valuation)
  {
    forall id :: id in v && id in g && id !in pinned ==> Ready(g[id], v) && v[id] == Step(g[id], v)
  }

  /** No unvalued node of `g` can be computed from `v`. */
  ghost predicate Stuck(g: Graph, v: Valuation)
  {
    forall id :: id in g && id !in v ==> !Ready(g[id], v)
  }

  /** A node ready over `v` is ready over any valuation with more keys. */
  lemma ReadyMono(n: NodeType, v: Valuation, w: Valuation)
    requires Ready(n, v) && v.Keys <= w.Keys
    ensures Ready(n, w)
  {
  }

  /** Growing the valuation keeps a ready node ready, with the same value. */
  lemma StepExtends(n: NodeType, v: Valuation, w: Valuation)
    requires Ready(n, v) && Extends(v, w)
    ensures Ready(n, w) && Step(n, w) == Step(n, v)
  {
    if n.Hint? {
      assert DepValues(n.deps, w) == DepValues(n.deps, v);
    }
  }

  /** Recording the computed value of one more node keeps a valuation
      locally consistent. */
  lemma ExtendConsistent(g: Graph, pinned: Valuation, v: Valuation, id: NodeId)
    requires LocallyConsistent(g, pinned, v)
    requires id in g && id !in v && Ready(g[id], v)
    ensures Extends(v, v[id := Step(g[id], v)])
    ensures LocallyConsistent(g, pinned, v[id := Step(g[id], v)])
  {
    var w := v[id := Step(g[id], v)];
    forall k | k in w && k in g && k !in pinned
      ensures Ready(g[k], w) && w[k] == Step(g[k], w)
    {
      if k == id {
        StepExtends(g[id], v, w);
      } else {
        StepExtends(g[k], v, w);
      }
    }
  }

  /** Uniqueness: on a topological graph, a valuation that covers every node,
      keeps the pinned values and is locally consistent holds exactly the
      reference values. */
  lemma {:induction false} ConsistentIsEval(g: Graph, pinned: Valuation, v: Valuation, id: NodeId)
    requires Topological(g) && InputsSupplied(g, pinned)
    requires Extends(pinned, v) && g.Keys <= v.Keys && LocallyConsistent(g, pinned, v)
    requires id in g
    ensures v[id] == Eval(g, pinned, id)
    decreases id
  {
    if id !in pinned {
      assert Below(g[id], id, g);
      match g[id]
      case Input =>
      case Constant(_) =>
      case Add(a, b) =>
        ConsistentIsEval(g, pinned, v, a);
        ConsistentIsEval(g, pinned, v, b);
      case Mul(a, b) =>
        ConsistentIsEval(g, pinned, v, a);
        ConsistentIsEval(g, pinned, v, b);
      case Hint(deps, f) =>
        forall d | d in deps ensures v[d] == Eval(g, pinned, d) {
          ConsistentIsEval(g, pinned, v, d);
        }
        assert DepValues(deps, v) == map d | d in deps :: Eval(g, pinned, d);
    }
  }

  /** The converse: the reference values, laid over the pinned map, form a
      valuation that keeps the pinned values and is locally consistent. */
  lemma ResolutionIsConsistent(g: Graph, pinned: Valuation)
    requires Topological(g) && InputsSupplied(g, pinned)
    ensures Extends(pinned, pinned + Resolution(g, pinned))
    ensures LocallyConsistent(g, pinned, pinned + Resolution(g, pinned))
  {
    var w := pinned + Resolution(g, pinned);
    forall id | id in w && id in g && id !in pinned
      ensures Ready(g[id], w) && w[id] == Step(g[id], w)
    {
      ResolutionStep(g, pinned, id);
    }
  }

  /** At an unpinned node, the local rule applied to the reference values
      yields the node's own reference value. */
  lemma ResolutionStep(g: Graph, pinned: Valuation, id: NodeId)
    requires Topological(g) && InputsSupplied(g, pinned) && id in g && id !in pinned
    ensures Ready(g[id], pinned + Resolution(g, pinned))
    ensures Step(g[id], pinned + Resolution(g, pinned)) == Eval(g, pinned, id)
  {
    var w := pinned + Resolution(g, pinned);
    assert Below(g[id], id, g) && !g[id].Input?;
    match g[id]
    case Constant(_) =>
    case Add(a, b) =>
      assert w[a] == Eval(g, pinned, a) && w[b] == Eval(g, pinned, b);
    case Mul(a, b) =>
      assert w[a] == Eval(g, pinned, a) && w[b] == Eval(g, pinned, b);
    case Hint(deps, f) =>
      assert DepValues(deps, w) == map d | d in deps :: Eval(g, pinned, d);
  }

  /** A complete, input-keeping, locally consistent valuation whose keys are
      exactly the pinned IDs and the nodes equals the pinned map overlaid
      with the reference values. */
  lemma FillIsResolution(g: Graph, pinned: Valuation, v: Valuation)
    requires Topological(g) && InputsSupplied(g, pinned)
    requires Extends(pinned, v) && v.Keys == pinned.Keys + g.Keys
    requires LocallyConsistent(g, pinned, v)
    ensures v == pinned + Resolution(g, pinned)
  {
    forall id | id in g ensures v[id] == Eval(g, pinned, id) {
      ConsistentIsEval(g, pinned, v, id);
    }
  }

  /** Progress: on a topological graph whose Input nodes are valued, a
      valuation from which no further node can be computed already covers
      every node. */
  lemma {:induction false} StuckIsResolved(g: Graph, v: Valuation, id: NodeId)
    requires Topological(g) && InputsSupplied(g, v) && Stuck(g, v)
    requires id in g
    ensures id in v
    decreases id
  {
    assert Below(g[id], id, g);
    match g[id]
    case Input =>
    case Constant(_) =>
    case Add(a, b) =>
      StuckIsResolved(g, v, a);
      StuckIsResolved(g, v, b);
    case Mul(a, b) =>
      StuckIsResolved(g, v, a);
      StuckIsResolved(g, v, b);
    case Hint(deps, _) =>
      forall d | d in deps ensures d in v {
        StuckIsResolved(g, v, d);
      }
  }

  /** The two evaluators' semantics coincide when the supplied map has
      entries only for Input nodes (or for IDs outside the graph): then
      keeping supplied values (Go) and overwriting non-Input ones (Rust)
      give the same value at every node. */
  lemma {:induction false} PinsAgree(g: Graph, inputs: Valuation, id: NodeId)
    requires Topological(g) && InputsSupplied(g, inputs)
    requires forall k :: k in inputs && k in g ==> g[k].Input?
    requires id in g
    ensures Eval(g, inputs, id) == Eval(g, InputPins(g, inputs), id)
    decreases id
  {
    var pins := InputPins(g, inputs);
    if id !in inputs {
      assert Below(g[id], id, g);
      match g[id]
      case Input =>
      case Constant(_) =>
      case Add(a, b) =>
        PinsAgree(g, inputs, a);
        PinsAgree(g, inputs, b);
      case Mul(a, b) =>
        PinsAgree(g, inputs, a);
        PinsAgree(g, inputs, b);
      case Hint(deps, f) =>
        forall d | d in deps ensures Eval(g, inputs, d) == Eval(g, pins, d) {
          PinsAgree(g, inputs, d);
        }
        assert (map d | d in deps :: Eval(g, inputs, d)) == (map d | d in deps :: Eval(g, pins, d));
    }
  }

  /** A Hint node with a single dependency applies its computation to the
      one-entry map of that dependency's value. */
  lemma EvalSingleDepHint(g: Graph, pinned: Valuation, id: NodeId)
    requires Topological(g) && InputsSupplied(g, pinned) && id in g && id !in pinned
    requires g[id].Hint? && |g[id].deps| == 1
    ensures g[id].deps[0] in g
    ensures Eval(g, pinned, id) == g[id].func(map[g[id].deps[0] := Eval(g, pinned, g[id].deps[0])])
  {
    var dep := g[id].deps[0];
    assert Below(g[id], id, g) && dep in g[id].deps;
    var m := map d | d in g[id].deps :: Eval(g, pinned, d);
    assert m.Keys == {dep} by {
      assert forall d :: d in g[id].deps <==> d == dep;
    }
    assert m == map[dep := Eval(g, pinned, dep)];
  }

  /** Whole-map form of PinsAgree. */
  lemma ResolutionsAgree(g: Graph, inputs: Valuation)
    requires Topological(g) && InputsSupplied(g, inputs)
    requires forall k :: k in inputs && k in g ==> g[k].Input?
    ensures inputs + Resolution(g, inputs) == inputs + Resolution(g, InputPins(g, inputs))
  {
    forall id | id in g ensures Eval(g, inputs, id) == Eval(g, InputPins(g, inputs), id) {
      PinsAgree(g, inputs, id);
    }
  }

  /** Where a supplied entry names a non-Input node, the two semantics part:
      a Constant node 0 holding 5, supplied with 7, is 7 when supplied values
      are kept and 5 when they are overwritten. */
  lemma PinsDiffer()
    ensures var g := map[0 := Constant(5)];
            var inputs := map[0 := 7];
            Topological(g) && InputsSupplied(g, inputs) &&
            Eval(g, inputs, 0) == 7 && Eval(g, InputPins(g, inputs), 0) == 5
  {
    var g: Graph := map[0 := Constant(5)];
    var inputs: Valuation := map[0 := 7];
    assert InputPins(g, inputs) == map[];
  }

  // ---------------------------------------------------------------------
  // Constraints

  /** Both sides of `c` have values in `v`, and the values are equal. */
  predicate Holds(c: Constraint, v: Valuation)
  {
    c.left in v && c.right in v && v[c.left] == v[c.right]
  }

  /** Every constraint of `cs` holds under `v`. */
  predicate Satisfied(cs: seq<Constraint>, v: Valuation)
  {
    forall i :: 0 <= i < |cs| ==> Holds(cs[i], v)
  }

  /** Appending one constraint: the list is satisfied iff the old list is and
      the new pair is present with equal values. */
  lemma SatisfiedAppend(cs: seq<Constraint>, c: Constraint, v: Valuation)
    ensures Satisfied(cs + [c], v) <==> Satisfied(cs, v) && Holds(c, v)
  {
    if Satisfied(cs + [c], v) {
      assert Holds((cs + [c])[|cs|], v);
      forall i | 0 <= i < |cs| ensures Holds(cs[i], v) {
        assert (cs + [c])[i] == cs[i];
      }
    }
  }

  // ---------------------------------------------------------------------
  // Shared loop

  /** Collects the values of a hint's dependencies in order, stopping at the
      first one without a value. */
  method GatherDeps(deps: seq<NodeId>, values: Valuation) returns (ok: bool, depValues: Valuation)
    ensures ok <==> forall d :: d in deps ==> d in values
    ensures ok ==> depValues == DepValues(deps, values)
  {
    depValues := map[];
    var i := 0;
    while i < |deps|
      invariant 0 <= i <= |deps|
      invariant forall j :: 0 <= j < i ==> deps[j] in values
      invariant depValues == DepValues(deps[..i], values)
    {
      var d := deps[i];
      if d !in values {
        return false, depValues;
      }
      assert deps[..i + 1] == deps[..i] + [d];
      depValues := depValues[d := values[d]];
      i := i + 1;
    }
    assert deps[..i] == deps;
    return true, depValues;
  }

  /** Removing one more member of `a` from the unvalued part shrinks it by one. */
  lemma ShrinkUnvalued(a: set<NodeId>, b: set<NodeId>, x: NodeId)
    requires x in a && x !in b
    ensures |a - (b + {x})| == |a - b| - 1
  {
    assert a - (b + {x}) == (a - b) - {x};
  }
}

=== FILE: go_graph.dfy ===
/** The Go version of the circuit builder: nodes live in a map keyed by ID,
    and FillNodes relaxes to a fixed point, sweeping the node map in an
    unspecified order until a sweep makes no progress. */
module GoGraph {
  import opened Circuit

  class Builder {
    var Nodes: Graph
    var Constraints: seq<Constraint>
    var NextID: NodeId

    /** The node map holds exactly the IDs issued so far. */
    ghost predicate Valid()
      reads this
    {
      forall id: NodeId :: id in Nodes <==> id < NextID
    }

    constructor ()
      ensures Nodes == map[] && Constraints == [] && NextID == 0
      ensures Valid() && Topological(Nodes)
    {
      Nodes := map[];
      Constraints := [];
      NextID := 0;
    }

    /** Issues the next ID for a new node of kind `n` and stores it. */
    method Store(n: NodeType) returns (id: NodeId)
      modifies this
      ensures id == old(NextID) && NextID == old(NextID) + 1
      ensures Nodes == old(Nodes)[id := n] && Constraints == old(Constraints)
      ensures old(Valid()) ==> Valid()
      ensures old(Topological(Nodes)) && Below(n, id, old(Nodes)) ==> Topological(Nodes)
    {
      id := NextID;
      NextID := NextID + 1;
      if Topological(Nodes) && Below(n, id, Nodes) {
        TopologicalAdd(Nodes, id, n);
      }
      Nodes := Nodes[id := n];
    }

    method Init() returns (id: NodeId)
      modifies this
      ensures id == old(NextID) && NextID == old(NextID) + 1
      ensures Nodes == old(Nodes)[id := Input] && Constraints == old(Constraints)
      ensures old(Valid()) ==> Valid()
      ensures old(Topological(Nodes)) ==> Topological(Nodes)
    {
      id := Store(Input);
    }

    method Constant(value: U32) returns (id: NodeId)
      modifies this
      ensures id == old(NextID) && NextID == old(NextID) + 1
      ensures Nodes == old(Nodes)[id := NodeType.Constant(value)] && Constraints == old(Constraints)
      ensures old(Valid()) ==> Valid()
      ensures old(Topological(Nodes)) ==> Topological(Nodes)
    {
      id := Store(NodeType.Constant(value));
    }

    method Add(a: NodeId, c: NodeId) returns (id: NodeId)
      modifies this
      ensures id == old(NextID) && NextID == old(NextID) + 1
      ensures Nodes == old(Nodes)[id := NodeType.Add(a, c)] && Constraints == old(Constraints)
      ensures old(Valid()) ==> Valid()
      ensures old(Valid() && Topological(Nodes)) && a < id && c < id ==> Topological(Nodes)
    {
      id := Store(NodeType.Add(a, c));
    }

    method Mul(a: NodeId, c: NodeId) returns (id: NodeId)
      modifies this
      ensures id == old(NextID) && NextID == old(NextID) + 1
      ensures Nodes == old(Nodes)[id := NodeType.Mul(a, c)] && Constraints == old(Constraints)
      ensures old(Valid()) ==> Valid()
      ensures old(Valid() && Topological(Nodes)) && a < id && c < id ==> Topological(Nodes)
    {
      id := Store(NodeType.Mul(a, c));
    }

    method AssertEqual(a: NodeId, c: NodeId)
      modifies this
      ensures Constraints == old(Constraints) + [Constraint(a, c)]
      ensures Nodes == old(Nodes) && NextID == old(NextID)
      ensures forall v: Valuation {:trigger Satisfied(Constraints, v)} ::
                Satisfied(Constraints, v) <==> Satisfied(old(Constraints), v) && Holds(Constraint(a, c), v)
    {
      Constraints := Constraints + [Constraint(a, c)];
      forall v: Valuation ensures Satisfied(Constraints, v) <==> Satisfied(old(Constraints), v) && Holds(Constraint(a, c), v) {
        SatisfiedAppend(old(Constraints), Constraint(a, c), v);
      }
    }

    /** A Hint node records the dependency IDs in the order given. */
    method Hint(dependencies: seq<NodeId>, computeFunc: HintFn) returns (id: NodeId)
      modifies this
      ensures id == old(NextID) && NextID == old(NextID) + 1
      ensures Nodes == old(Nodes)[id := NodeType.Hint(dependencies, computeFunc)]
      ensures Constraints == old(Constraints)
      ensures old(Valid()) ==> Valid()
      ensures old(Valid() && Topological(Nodes)) && (forall d :: d in dependencies ==> d < id) ==> Topological(Nodes)
    {
      id := Store(NodeType.Hint(dependencies, computeFunc));
    }

    /** The validation sweep: finds some Input node without a supplied value,
        visiting the nodes in an unspecified order. */
    method FindMissingInput(inputs: Valuation) returns (missing: Option<NodeId>)
      ensures missing.None? <==> InputsSupplied(Nodes, inputs)
      ensures missing.Some? ==> missing.value in Nodes && Nodes[missing.value].Input? && missing.value !in inputs
    {
      var unchecked := Nodes.Keys;
      while unchecked != {}
        invariant unchecked <= Nodes.Keys
        invariant forall id :: id in Nodes && id !in unchecked && Nodes[id].Input? ==> id in inputs
        decreases unchecked
      {
        var id :| id in unchecked;
        if Nodes[id].Input? && id !in inputs {
          return Some(id);
        }
        unchecked := unchecked - {id};
      }
      return None;
    }

    /** The value node `id` gets from `values`, if its operands all have
        values: the literal, the wrapping sum or product of the parents, or
        the hint computation applied to exactly its dependencies' values.
        An Input node is never computed here. */
    method Compute(id: NodeId, values: Valuation) returns (next: Option<U32>)
      requires id in Nodes
      ensures next.Some? <==> Ready(Nodes[id], values)
      ensures next.Some? ==> next.value == Step(Nodes[id], values)
    {
      next := None;
      match Nodes[id]
      case Input =>
      case Constant(c) =>
        next := Some(c);
      case Add(a, b) =>
        if a in values && b in values {
          next := Some(WrappingAdd(values[a], values[b]));
        }
      case Mul(a, b) =>
        if a in values && b in values {
          next := Some(WrappingMul(values[a], values[b]));
        }
      case Hint(deps, f) =>
        var allDepsHaveValues, depValues := GatherDeps(deps, values);
        if allDepsHaveValues {
          next := Some(f(depValues));
        }
    }

    /** One relaxation sweep over every node, in an unspecified order: a node
        that has no value yet and whose operands all have values gets the
        value the local rule gives. `progress` says whether any node did. */
    method Sweep(ghost inputs: Valuation, start: Valuation) returns (values: Valuation, progress: bool)
      requires Extends(inputs, start) && start.Keys <= inputs.Keys + Nodes.Keys
      requires LocallyConsistent(Nodes, inputs, start)
      requires forall w: Valuation {:trigger Stuck(Nodes, w)} ::
                 inputs.Keys <= w.Keys && Stuck(Nodes, w) ==> start.Keys <= w.Keys
      ensures Extends(inputs, values) && values.Keys <= inputs.Keys + Nodes.Keys
      ensures LocallyConsistent(Nodes, inputs, values)
      ensures Extends(start, values)
      ensures progress ==> |Nodes.Keys - values.Keys| < |Nodes.Keys - start.Keys|
      ensures !progress ==> values == start && Stuck(Nodes, values)
      ensures forall w: Valuation {:trigger Stuck(Nodes, w)} ::
                inputs.Keys <= w.Keys && Stuck(Nodes, w) ==> values.Keys <= w.Keys
    {
      values := start;
      progress := false;
      var unvisited := Nodes.Keys;
      while unvisited != {}
        invariant unvisited <= Nodes.Keys
        invariant Extends(inputs, values) && values.Keys <= inputs.Keys + Nodes.Keys
        invariant LocallyConsistent(Nodes, inputs, values)
        invariant Extends(start, values)
        invariant |Nodes.Keys - values.Keys| <= |Nodes.Keys - start.Keys|
        invariant progress ==> |Nodes.Keys - values.Keys| < |Nodes.Keys - start.Keys|
        invariant !progress ==> values == start
        invariant !progress ==> forall id :: id in Nodes && id !in unvisited && id !in values ==> !Ready(Nodes[id], values)
        invariant forall w: Valuation {:trigger Stuck(Nodes, w)} ::
                    inputs.Keys <= w.Keys && Stuck(Nodes, w) ==> values.Keys <= w.Keys
        decreases unvisited
      {
        var id :| id in unvisited;
        unvisited := unvisited - {id};
        if id in values {
          continue;
        }
        var next := Compute(id, values);
        if next.Some? {
          forall w: Valuation | inputs.Keys <= w.Keys && Stuck(Nodes, w) ensures id in w {
            ReadyMono(Nodes[id], values, w);
          }
          RecordStep(Nodes, inputs, start, values, id);
          values := values[id := next.value];
          progress := true;
        }
      }
    }

    /** Resolves every node from the supplied values by repeated sweeps until
        one makes no progress. Supplied values are kept, even for IDs that are
        not Input nodes. */
    method FillNodes(inputs: Valuation) returns (r: Result<Valuation>)
      ensures r.Err? && r.error.MissingInput? <==> !InputsSupplied(Nodes, inputs)
      ensures r.Err? && r.error.MissingInput? ==>
                r.error.id in Nodes && Nodes[r.error.id].Input? && r.error.id !in inputs
      ensures r.Err? ==> r.error.MissingInput? || r.error.Unresolvable?
      ensures r.Ok? ==> Nodes.Keys <= r.value.Keys && r.value.Keys <= Nodes.Keys + inputs.Keys
      ensures r.Ok? ==> Extends(inputs, r.value) && LocallyConsistent(Nodes, inputs, r.value)
      ensures r.Ok? ==> forall w: Valuation {:trigger Stuck(Nodes, w)} ::
                inputs.Keys <= w.Keys && Stuck(Nodes, w) ==> Nodes.Keys <= w.Keys
      ensures r == Err(Unresolvable) ==>
                exists v: Valuation :: Extends(inputs, v) && LocallyConsistent(Nodes, inputs, v) &&
                  Stuck(Nodes, v) && !(Nodes.Keys <= v.Keys)
      ensures Topological(Nodes) && InputsSupplied(Nodes, inputs) ==>
                r == Ok(inputs + Resolution(Nodes, inputs))
    {
      var missing := FindMissingInput(inputs);
      if missing.Some? {
        return Err(MissingInput(missing.value));
      }
      var values: Valuation := inputs;
      while true
        invariant Extends(inputs, values) && values.Keys <= inputs.Keys + Nodes.Keys
        invariant LocallyConsistent(Nodes, inputs, values)
        invariant forall w: Valuation {:trigger Stuck(Nodes, w)} ::
                    inputs.Keys <= w.Keys && Stuck(Nodes, w) ==> values.Keys <= w.Keys
        decreases |Nodes.Keys - values.Keys|
      {
        var progress;
        values, progress := Sweep(inputs, values);
        if !progress {
          break;
        }
      }
      if Topological(Nodes) {
        forall id | id in Nodes ensures id in values {
          StuckIsResolved(Nodes, values, id);
        }
        FillIsResolution(Nodes, inputs, values);
      }
      if !(Nodes.Keys <= values.Keys) {
        assert Extends(inputs, values) && LocallyConsistent(Nodes, inputs, values) && Stuck(Nodes, values);
        return Err(Unresolvable);
      }
      return Ok(values);
    }

    /** True iff every constraint has both sides valued and equal; stops at
        the first one that does not. */
    method CheckConstraints(values: Valuation) returns (ok: bool)
      ensures ok == Satisfied(Constraints, values)
    {
      var i := 0;
      while i < |Constraints|
        invariant 0 <= i <= |Constraints|
        invariant forall j :: 0 <= j < i ==> Holds(Constraints[j], values)
      {
        var constraint := Constraints[i];
        var leftOk, rightOk := constraint.left in values, constraint.right in values;
        if !leftOk || !rightOk || values[constraint.left] != values[constraint.right] {
          return false;
        }
        i := i + 1;
      }
      return true;
    }
  }

  /** Recording one more computed node in a sweep keeps every property the
      sweep maintains and leaves one fewer node without a value. */
  lemma RecordStep(g: Graph, inputs: Valuation, start: Valuation, values: Valuation, id: NodeId)
    requires Extends(inputs, values) && values.Keys <= inputs.Keys + g.Keys
    requires LocallyConsistent(g, inputs, values) && Extends(start, values)
    requires id in g && id !in values && Ready(g[id], values)
    ensures var w := values[id := Step(g[id], values)];
            && Extends(inputs, w) && w.Keys <= inputs.Keys + g.Keys
            && LocallyConsistent(g, inputs, w) && Extends(start, w)
            && |g.Keys - w.Keys| == |g.Keys - values.Keys| - 1
  {
    var w := values[id := Step(g[id], values)];
    ExtendConsistent(g, inputs, values, id);
    ExtendsTrans(inputs, values, w);
    ExtendsTrans(start, values, w);
    assert w.Keys == values.Keys + {id};
    ShrinkUnvalued(g.Keys, values.Keys, id);
  }
}

=== FILE: rust_graph.dfy ===
/** The Rust version of the circuit builder: nodes live in a vector in
    creation order, and fill_nodes evaluates them in one pass in that order,
    failing as soon as an operand has no value yet. */
module RustGraph {
  import opened Circuit

  /** A node handle: the node's ID and its kind. */
  datatype Node = Node(id: NodeId, nodeType: NodeType)

  /** The node vector viewed as a map from position to node kind. */
  function GraphOf(nodes: seq<Node>): (g: Graph)
    ensures forall i: NodeId :: i in g <==> i < |nodes|
  {
    map i | 0 <= i < |nodes| :: nodes[i].nodeType
  }

  /** How many Hint nodes `nodes` holds. */
  function HintCount(nodes: seq<Node>): (n: nat)
    ensures n <= |nodes|
    ensures n == 0 <==> forall i :: 0 <= i < |nodes| ==> !nodes[i].nodeType.Hint?
  {
    if nodes == [] then 0
    else HintCount(nodes[..|nodes| - 1]) + (if nodes[|nodes| - 1].nodeType.Hint? then 1 else 0)
  }

  /** Pushing a node extends the map view by one entry. */
  lemma GraphOfPush(nodes: seq<Node>, node: Node)
    ensures GraphOf(nodes + [node]) == GraphOf(nodes)[|nodes| := node.nodeType]
  {
  }

  /** Pushing a node counts one more hint exactly when it is a Hint node. */
  lemma HintCountPush(nodes: seq<Node>, node: Node)
    ensures HintCount(nodes + [node]) == HintCount(nodes) + (if node.nodeType.Hint? then 1 else 0)
  {
    assert (nodes + [node])[..|nodes|] == nodes;
  }

  class Builder {
    var nodes: seq<Node>
    var constraints: seq<Constraint>
    var nextId: nat
    var nextHintId: nat

    /** The node at position i has ID i, the next ID is the number of nodes,
        and the hint counter counts the Hint nodes. */
    ghost predicate Valid()
      reads this
    {
      && nextId == |nodes|
      && (forall i :: 0 <= i < |nodes| ==> nodes[i].id == i)
      && nextHintId == HintCount(nodes)
    }

    /** The node store as a map from ID to kind. */
    ghost function AsGraph(): Graph
      reads this
    {
      GraphOf(nodes)
    }

    constructor ()
      ensures Valid() && Topological(AsGraph())
      ensures nodes == [] && constraints == [] && nextId == 0 && nextHintId == 0
    {
      nodes := [];
      constraints := [];
      nextId := 0;
      nextHintId := 0;
    }

    /** Issues the next ID for a new node of kind `t` and pushes it. */
    method Push(t: NodeType) returns (node: Node)
      requires Valid()
      modifies this
      ensures Valid()
      ensures node == Node(old(nextId), t) && nodes == old(nodes) + [node]
      ensures nextId == old(nextId) + 1 && constraints == old(constraints)
      ensures nextHintId == old(nextHintId) + (if t.Hint? then 1 else 0)
      ensures AsGraph() == old(AsGraph())[node.id := t]
      ensures old(Topological(AsGraph())) && Below(t, node.id, old(AsGraph())) ==> Topological(AsGraph())
    {
      var id := nextId;
      nextId := nextId + 1;
      if t.Hint? {
        nextHintId := nextHintId + 1;
      }
      node := Node(id, t);
      HintCountPush(nodes, node);
      GraphOfPush(nodes, node);
      if Topological(AsGraph()) && Below(t, id, AsGraph()) {
        TopologicalAdd(AsGraph(), id, t);
      }
      nodes := nodes + [node];
    }

    method Init() returns (node: Node)
      requires Valid()
      modifies this
      ensures Valid()
      ensures node == Node(old(nextId), Input) && nodes == old(nodes) + [node]
      ensures AsGraph() == old(AsGraph())[node.id := node.nodeType]
      ensures nextId == old(nextId) + 1 && nextHintId == old(nextHintId) && constraints == old(constraints)
      ensures old(Topological(AsGraph())) ==> Topological(AsGraph())
    {
      node := Push(Input);
    }

    method Constant(value: U32) returns (node: Node)
      requires Valid()
      modifies this
      ensures Valid()
      ensures node == Node(old(nextId), NodeType.Constant(value)) && nodes == old(nodes) + [node]
      ensures AsGraph() == old(AsGraph())[node.id := node.nodeType]
      ensures nextId == old(nextId) + 1 && nextHintId == old(nextHintId) && constraints == old(constraints)
      ensures old(Topological(AsGraph())) ==> Topological(AsGraph())
    {
      node := Push(NodeType.Constant(value));
    }

    method Add(a: Node, b: Node) returns (node: Node)
      requires Valid()
      modifies this
      ensures Valid()
      ensures node == Node(old(nextId), NodeType.Add(a.id, b.id)) && nodes == old(nodes) + [node]
      ensures AsGraph() == old(AsGraph())[node.id := node.nodeType]
      ensures nextId == old(nextId) + 1 && nextHintId == old(nextHintId) && constraints == old(constraints)
      ensures old(Topological(AsGraph())) && a.id < node.id && b.id < node.id ==> Topological(AsGraph())
    {
      node := Push(NodeType.Add(a.id, b.id));
    }

    method Mul(a: Node, b: Node) returns (node: Node)
      requires Valid()
      modifies this
      ensures Valid()
      ensures node == Node(old(nextId), NodeType.Mul(a.id, b.id)) && nodes == old(nodes) + [node]
      ensures AsGraph() == old(AsGraph())[node.id := node.nodeType]
      ensures nextId == old(nextId) + 1 && nextHintId == old(nextHintId) && constraints == old(constraints)
      ensures old(Topological(AsGraph())) && a.id < node.id && b.id < node.id ==> Topological(AsGraph())
    {
      node := Push(NodeType.Mul(a.id, b.id));
    }

    method AssertEqual(a: Node, b: Node)
      requires Valid()
      modifies this
      ensures Valid()
      ensures constraints == old(constraints) + [Constraint(a.id, b.id)]
      ensures nodes == old(nodes) && nextId == old(nextId) && nextHintId == old(nextHintId)
    {
      constraints := constraints + [Constraint(a.id, b.id)];
    }

    /** A Hint node records its dependencies' IDs in the order given and
        takes the next hint-function number as well as the next node ID. */
    method Hint(dependencies: seq<Node>, computeFunc: HintFn) returns (node: Node)
      requires Valid()
      modifies this
      ensures Valid()
      ensures node.id == old(nextId) && nodes == old(nodes) + [node]
      ensures node.nodeType.Hint? && node.nodeType.func == computeFunc
      ensures AsGraph() == old(AsGraph())[node.id := node.nodeType]
      ensures |node.nodeType.deps| == |dependencies|
      ensures forall i :: 0 <= i < |dependencies| ==> node.nodeType.deps[i] == dependencies[i].id
      ensures nextId == old(nextId) + 1 && nextHintId == old(nextHintId) + 1 && constraints == old(constraints)
      ensures old(Topological(AsGraph())) && (forall d :: d in dependencies ==> d.id < node.id) ==> Topological(AsGraph())
    {
      var dependencyIds := seq(|dependencies|, i requires 0 <= i < |dependencies| => dependencies[i].id);
      node := Push(NodeType.Hint(dependencyIds, computeFunc));
      if old(Topological(AsGraph())) && (forall d :: d in dependencies ==> d.id < node.id) {
        forall d | d in dependencyIds ensures d < node.id {
          var i :| 0 <= i < |dependencyIds| && dependencyIds[i] == d;
          assert dependencies[i] in dependencies;
        }
      }
    }

    /** The validation pass: the first Input node, in creation order, whose
        ID has no supplied value. */
    method FindMissingInput(inputs: Valuation) returns (missing: Option<NodeId>)
      requires Valid()
      ensures missing.None? <==> InputsSupplied(AsGraph(), inputs)
      ensures missing.Some? ==> missing.value < |nodes| && nodes[missing.value].nodeType.Input? && missing.value !in inputs
      ensures missing.Some? ==> forall k :: 0 <= k < missing.value && nodes[k].nodeType.Input? ==> k in inputs
    {
      for i := 0 to |nodes|
        invariant forall k :: 0 <= k < i && nodes[k].nodeType.Input? ==> k in inputs
      {
        if nodes[i].nodeType.Input? && nodes[i].id !in inputs {
          return Some(nodes[i].id);
        }
      }
      return None;
    }

    /** Evaluates the nodes in creation order from the supplied values.
        Constant, Add, Mul and Hint results overwrite any supplied entry for
        the same ID; an operand without a value is an error. */
    method FillNodes(inputs: Valuation) returns (r: Result<Valuation>)
      requires Valid()
      ensures r.Err? && r.error.MissingInput? <==> !InputsSupplied(AsGraph(), inputs)
      ensures r.Err? && r.error.MissingInput? ==>
                r.error.id < |nodes| && nodes[r.error.id].nodeType.Input? && r.error.id !in inputs &&
                forall k :: 0 <= k < r.error.id && nodes[k].nodeType.Input? ==> k in inputs
      ensures r.Err? && r.error.MissingOperands? ==>
                r.error.id < |nodes| && (nodes[r.error.id].nodeType.Add? || nodes[r.error.id].nodeType.Mul?)
      ensures r.Err? && r.error.MissingDependencies? ==>
                r.error.id < |nodes| && nodes[r.error.id].nodeType.Hint?
      ensures r.Err? ==> !r.error.Unresolvable?
      ensures r.Err? && !r.error.MissingInput? ==>
                exists o: NodeId :: Refs(nodes[r.error.id].nodeType, o) && o !in inputs && o >= r.error.id
      ensures r.Err? && !r.error.MissingInput? ==> EarlierRefsValued(nodes, inputs, r.error.id)
      ensures r.Ok? ==> EarlierRefsValued(nodes, inputs, |nodes|)
      ensures r.Ok? ==> r.value.Keys == inputs.Keys + AsGraph().Keys
      ensures r.Ok? ==> PassValues(nodes, inputs, r.value, |nodes|)
      ensures Topological(AsGraph()) && InputsSupplied(AsGraph(), inputs) ==>
                r == Ok(inputs + Resolution(AsGraph(), InputPins(AsGraph(), inputs)))
    {
      var missing := FindMissingInput(inputs);
      if missing.Some? {
        return Err(MissingInput(missing.value));
      }
      r := FillInOrder(inputs);
    }

    /** The evaluation pass that follows validation: every node in creation
        order, stopping at the first one whose operands are not all valued. */
    method FillInOrder(inputs: Valuation) returns (r: Result<Valuation>)
      requires Valid() && InputsSupplied(AsGraph(), inputs)
      ensures r.Err? && r.error.MissingOperands? ==>
                r.error.id < |nodes| && (nodes[r.error.id].nodeType.Add? || nodes[r.error.id].nodeType.Mul?)
      ensures r.Err? && r.error.MissingDependencies? ==>
                r.error.id < |nodes| && nodes[r.error.id].nodeType.Hint?
      ensures r.Err? ==> r.error.MissingOperands? || r.error.MissingDependencies?
      ensures r.Err? ==>
                exists o: NodeId :: Refs(nodes[r.error.id].nodeType, o) && o !in inputs && o >= r.error.id
      ensures r.Err? ==> EarlierRefsValued(nodes, inputs, r.error.id)
      ensures r.Ok? ==> EarlierRefsValued(nodes, inputs, |nodes|)
      ensures r.Ok? ==> r.value.Keys == inputs.Keys + AsGraph().Keys
      ensures r.Ok? ==> PassValues(nodes, inputs, r.value, |nodes|)
      ensures Topological(AsGraph()) ==> r == Ok(inputs + Resolution(AsGraph(), InputPins(AsGraph(), inputs)))
    {
      ghost var g := AsGraph();
      ghost var pins := InputPins(g, inputs);
      assert InputsSupplied(g, pins);
      var values: Valuation := inputs;
      for i := 0 to |nodes|
        invariant forall k: NodeId :: k in values <==> k in inputs || k < i
        invariant Topological(g) ==> ResolvedBelow(g, inputs, pins, values, i)
        invariant PassValues(nodes, inputs, values, i)
      {
        var node := nodes[i];
        assert node.id == i && g[i] == node.nodeType;
        if Topological(g) {
          ResolvedNext(g, inputs, pins, values, i);
        }
        var next := FillNode(node, values);
        if next.Err? {
          ReadyRefs(node.nodeType, values);
          ghost var o: NodeId :| Refs(node.nodeType, o) && o !in values;
          assert o !in inputs && o >= i;
          PassRefs(nodes, inputs, values, i);
          return Err(next.error);
        }
        assert forall k: NodeId :: k in next.value <==> k in inputs || k < i + 1;
        PassStep(nodes, inputs, values, i, next.value);
        if Topological(g) {
          ResolvedStep(g, inputs, pins, values, i, next.value);
        }
        values := next.value;
      }
      PassRefs(nodes, inputs, values, |nodes|);
      if Topological(g) {
        ResolvedBelowAll(g, inputs, pins, values, |nodes|);
      }
      return Ok(values);
    }

    /** One iteration of the in-order pass: an Input node leaves the map as
        it is; any other node whose operands all have values is stored with
        the local rule's value, overwriting a supplied entry; otherwise the
        error names the node. */
    method FillNode(node: Node, values: Valuation) returns (r: Result<Valuation>)
      ensures r.Ok? && node.nodeType.Input? ==> r.value == values
      ensures r.Ok? && !node.nodeType.Input? ==>
                Ready(node.nodeType, values) && r.value == values[node.id := Step(node.nodeType, values)]
      ensures r.Err? <==> !node.nodeType.Input? && !Ready(node.nodeType, values)
      ensures r.Err? && (node.nodeType.Add? || node.nodeType.Mul?) ==> r.error == MissingOperands(node.id)
      ensures r.Err? && node.nodeType.Hint? ==> r.error == MissingDependencies(node.id)
    {
      match node.nodeType
      case Input =>
        r := Ok(values);
      case Constant(c) =>
        r := Ok(values[node.id := c]);
      case Add(a, b) =>
        if a in values && b in values {
          r := Ok(values[node.id := WrappingAdd(values[a], values[b])]);
        } else {
          r := Err(MissingOperands(node.id));
        }
      case Mul(a, b) =>
        if a in values && b in values {
          r := Ok(values[node.id := WrappingMul(values[a], values[b])]);
        } else {
          r := Err(MissingOperands(node.id));
        }
      case Hint(deps, f) =>
        var ok, depValues := GatherDeps(deps, values);
        if ok {
          r := Ok(values[node.id := f(depValues)]);
        } else {
          r := Err(MissingDependencies(node.id));
        }
    }

    /** True iff every constraint has both sides valued and equal; stops at
        the first one that does not. */
    method CheckConstraints(values: Valuation) returns (ok: bool)
      ensures ok == Satisfied(constraints, values)
    {
      for i := 0 to |constraints|
        invariant forall j :: 0 <= j < i ==> Holds(constraints[j], values)
      {
        var constraint := constraints[i];
        if constraint.left !in values || constraint.right !in values {
          return false;
        }
        if values[constraint.left] != values[constraint.right] {
          return false;
        }
      }
      return true;
    }
  }

  /** Every node before position `i` refers only to supplied IDs or to
      nodes created before it: the in-order pass gets past those nodes. */
  ghost predicate EarlierRefsValued(nodes: seq<Node>, inputs: Valuation, i: nat)
    requires i <= |nodes|
  {
    forall k: NodeId, o: NodeId :: k < i && Refs(nodes[k].nodeType, o) ==> o in inputs || o < k
  }

  /** The map the in-order pass holds when it reaches node `k`, read off a
      later map `v`: the supplied entries, overlaid with the entries of `v`
      for the nodes before `k`. */
  function Snapshot(inputs: Valuation, v: Valuation, k: nat): Valuation
  {
    inputs + map j | j in v && j < k :: v[j]
  }

  /** Node `k` as the in-order pass left it in `v`: an Input node keeps its
      supplied value, and any other node holds the local rule's value over
      the map the pass held when it reached `k`. */
  ghost predicate PassedAt(nodes: seq<Node>, inputs: Valuation, v: Valuation, k: nat)
    requires k < |nodes|
  {
    && k in v
    && (nodes[k].nodeType.Input? ==> k in inputs && v[k] == inputs[k])
    && (!nodes[k].nodeType.Input? ==>
          Ready(nodes[k].nodeType, Snapshot(inputs, v, k)) &&
          v[k] == Step(nodes[k].nodeType, Snapshot(inputs, v, k)))
  }

  /** `v` is what the in-order pass yields after the first `n` nodes, on any
      graph: supplied entries at or beyond `n` are untouched, and every node
      before `n` is as the pass left it. */
  ghost predicate PassValues(nodes: seq<Node>, inputs: Valuation, v: Valuation, n: nat)
    requires n <= |nodes|
  {
    && (forall k :: k in inputs && k >= n ==> k in v && v[k] == inputs[k])
    && (forall k :: 0 <= k < n ==> PassedAt(nodes, inputs, v, k))
  }

  /** Two maps that agree below `k` give the same snapshot at `k`. */
  lemma SnapshotAgree(inputs: Valuation, v: Valuation, w: Valuation, k: nat)
    requires forall j :: j < k ==> (j in v <==> j in w)
    requires forall j :: j < k && j in v ==> v[j] == w[j]
    ensures Snapshot(inputs, v, k) == Snapshot(inputs, w, k)
  {
    assert (map j | j in v && j < k :: v[j]) == (map j | j in w && j < k :: w[j]);
  }

  /** At the pass's cursor `i` the snapshot is the map the pass holds. */
  lemma SnapshotAtCursor(inputs: Valuation, values: Valuation, i: nat)
    requires forall k: NodeId :: k in values <==> k in inputs || k < i
    requires forall k :: k in inputs && k >= i ==> k in values && values[k] == inputs[k]
    ensures Snapshot(inputs, values, i) == values
  {
    var s := Snapshot(inputs, values, i);
    forall k | k in values ensures k in s && s[k] == values[k] {
      if k >= i {
        assert k in inputs;
      }
    }
    assert s.Keys == values.Keys;
  }

  /** A node the pass has got past stays as it was left when the map
      changes only at later IDs. */
  lemma PassedAtKept(nodes: seq<Node>, inputs: Valuation, values: Valuation, next: Valuation, k: nat)
    requires k < |nodes| && PassedAt(nodes, inputs, values, k)
    requires forall j :: j <= k ==> (j in next <==> j in values)
    requires forall j :: j <= k && j in values ==> next[j] == values[j]
    ensures PassedAt(nodes, inputs, next, k)
  {
    SnapshotAgree(inputs, next, values, k);
  }

  /** The node at the cursor `i`, handled as the pass handles it, is as the
      pass leaves it. */
  lemma PassedAtCursor(nodes: seq<Node>, inputs: Valuation, values: Valuation, i: nat, next: Valuation)
    requires i < |nodes|
    requires forall k: NodeId :: k in values <==> k in inputs || k < i
    requires forall k :: k in inputs && k >= i ==> k in values && values[k] == inputs[k]
    requires nodes[i].nodeType.Input? ==> i in inputs && next == values
    requires !nodes[i].nodeType.Input? ==>
               Ready(nodes[i].nodeType, values) && next == values[i := Step(nodes[i].nodeType, values)]
    ensures PassedAt(nodes, inputs, next, i)
  {
    if !nodes[i].nodeType.Input? {
      SnapshotAtCursor(inputs, values, i);
      SnapshotAgree(inputs, next, values, i);
      assert Snapshot(inputs, next, i) == values;
    }
  }

  /** One iteration of the in-order pass, on any graph, extends PassValues
      by node `i`. */
  lemma PassStep(nodes: seq<Node>, inputs: Valuation, values: Valuation, i: nat, next: Valuation)
    requires i < |nodes|
    requires nodes[i].nodeType.Input? ==> i in inputs
    requires forall k: NodeId :: k in values <==> k in inputs || k < i
    requires PassValues(nodes, inputs, values, i)
    requires nodes[i].nodeType.Input? ==> next == values
    requires !nodes[i].nodeType.Input? ==>
               Ready(nodes[i].nodeType, values) && next == values[i := Step(nodes[i].nodeType, values)]
    ensures PassValues(nodes, inputs, next, i + 1)
  {
    forall k | 0 <= k < i ensures PassedAt(nodes, inputs, next, k) {
      PassedAtKept(nodes, inputs, values, next, k);
    }
    PassedAtCursor(nodes, inputs, values, i, next);
  }

  /** The nodes the pass has got past refer only to supplied IDs or to
      earlier nodes: the local rule was ready on their snapshots. */
  lemma PassRefs(nodes: seq<Node>, inputs: Valuation, v: Valuation, n: nat)
    requires n <= |nodes| && PassValues(nodes, inputs, v, n)
    requires forall k: NodeId :: k in v ==> k in inputs || k < n
    ensures EarlierRefsValued(nodes, inputs, n)
  {
    forall k: NodeId, o: NodeId | k < n && Refs(nodes[k].nodeType, o) ensures o in inputs || o < k {
      assert PassedAt(nodes, inputs, v, k);
      ReadyRefs(nodes[k].nodeType, Snapshot(inputs, v, k));
    }
  }

  /** After the in-order pass has handled the nodes below `i`: those nodes
      hold their reference values, and every other supplied entry is still
      the supplied value. */
  ghost predicate ResolvedBelow(g: Graph, inputs: Valuation, pins: Valuation, values: Valuation, i: nat)
    requires Topological(g) && InputsSupplied(g, pins)
  {
    && (forall k :: k in inputs && k >= i ==> k in values && values[k] == inputs[k])
    && (forall k: NodeId :: k < i ==> k in g && k in values && values[k] == Eval(g, pins, k))
  }

  /** Node `i` of a topological graph, reached by the in-order pass: an
      Input node already holds its reference value, and any other node's
      operands all have values from which the local rule yields its
      reference value. */
  lemma ResolvedNext(g: Graph, inputs: Valuation, pins: Valuation, values: Valuation, i: NodeId)
    requires Topological(g) && InputsSupplied(g, inputs) && pins == InputPins(g, inputs) && i in g
    requires InputsSupplied(g, pins) && ResolvedBelow(g, inputs, pins, values, i)
    ensures g[i].Input? ==> i in values && values[i] == Eval(g, pins, i)
    ensures !g[i].Input? ==> Ready(g[i], values) && Step(g[i], values) == Eval(g, pins, i)
  {
    assert Below(g[i], i, g);
    match g[i]
    case Input =>
      assert i in inputs;
    case Constant(_) =>
    case Add(a, b) =>
      assert values[a] == Eval(g, pins, a) && values[b] == Eval(g, pins, b);
    case Mul(a, b) =>
      assert values[a] == Eval(g, pins, a) && values[b] == Eval(g, pins, b);
    case Hint(deps, f) =>
      assert DepValues(deps, values) == map d | d in deps :: Eval(g, pins, d);
  }

  /** The in-order pass keeps its invariant: leaving an Input node's entry
      as it is, or storing any other node's local-rule value, extends the
      resolved prefix to node `i`. */
  lemma ResolvedStep(g: Graph, inputs: Valuation, pins: Valuation, values: Valuation, i: NodeId, next: Valuation)
    requires Topological(g) && InputsSupplied(g, inputs) && pins == InputPins(g, inputs) && i in g
    requires InputsSupplied(g, pins) && ResolvedBelow(g, inputs, pins, values, i)
    requires g[i].Input? ==> next == values
    requires !g[i].Input? ==> Ready(g[i], values) && next == values[i := Step(g[i], values)]
    ensures ResolvedBelow(g, inputs, pins, next, i + 1)
  {
    ResolvedNext(g, inputs, pins, values, i);
  }

  /** Once every node is handled, the pass's map is the supplied map
      overlaid with the reference values. */
  lemma ResolvedBelowAll(g: Graph, inputs: Valuation, pins: Valuation, values: Valuation, n: nat)
    requires Topological(g) && InputsSupplied(g, pins)
    requires forall k: NodeId :: k in g <==> k < n
    requires forall k: NodeId :: k in values <==> k in inputs || k < n
    requires ResolvedBelow(g, inputs, pins, values, n)
    ensures values == inputs + Resolution(g, pins)
  {
    var w := inputs + Resolution(g, pins);
    forall k | k in values ensures k in w && values[k] == w[k] {
      if k < n {
        assert k in g;
      }
    }
  }
}

=== FILE: test_circuits.dfy ===
/** The example circuits both versions ship with as unit tests, built with
    each builder and evaluated with each evaluator. */
module TestCircuits {
  import opened Circuit
  import GoGraph
  import RustGraph

  // ---------------------------------------------------------------------
  // f(x) = x*x + x + 5

  /** The quadratic circuit: x, x*x, 5, x*x + x, and the result. */
  function QuadraticGraph(): Graph
  {
    map[0 := Input, 1 := Mul(0, 0), 2 := Constant(5), 3 := Add(1, 0), 4 := Add(3, 2)]
  }

  /** Every node of the quadratic circuit refers only to earlier nodes. */
  lemma QuadraticTopological()
    ensures Topological(QuadraticGraph())
  {
    var g := QuadraticGraph();
    forall id | id in g ensures Below(g[id], id, g) {
    }
  }

  /** At x = 3 the quadratic circuit's result node is 9 + 3 + 5 = 17. */
  lemma QuadraticEval()
    ensures Topological(QuadraticGraph()) && InputsSupplied(QuadraticGraph(), map[0 := 3])
    ensures InputPins(QuadraticGraph(), map[0 := 3]) == map[0 := 3]
    ensures Eval(QuadraticGraph(), map[0 := 3], 4) == 17
  {
    QuadraticTopological();
    var g, inputs := QuadraticGraph(), map[0 := 3];
    assert InputPins(g, inputs) == inputs;
    assert Eval(g, inputs, 0) == 3;
    assert Eval(g, inputs, 1) == WrappingMul(3, 3) == 9;
    assert Eval(g, inputs, 3) == 12;
  }

  method GoBuildQuadratic() returns (builder: GoGraph.Builder)
    ensures fresh(builder) && builder.Valid()
    ensures builder.Nodes == QuadraticGraph() && builder.Constraints == []
  {
    builder := new GoGraph.Builder();
    var x := builder.Init();
    var xSquared := builder.Mul(x, x);
    assert x == 0 && xSquared == 1;
    var five := builder.Constant(5);
    var xSquaredPlusX := builder.Add(xSquared, x);
    assert five == 2 && xSquaredPlusX == 3;
    var result := builder.Add(xSquaredPlusX, five);
  }

  /** The Go quadratic test: x = 3 gives 17 and the (empty) constraint
      list holds. */
  method GoQuadratic() returns (y: U32, satisfied: bool)
    ensures y == 17 && satisfied
  {
    var builder := GoBuildQuadratic();
    QuadraticEval();
    var r := builder.FillNodes(map[0 := 3]);
    assert r.Ok?;
    var values := r.value;
    assert values[4] == Eval(QuadraticGraph(), map[0 := 3], 4);
    y := if 4 in values then values[4] else 0;
    satisfied := builder.CheckConstraints(values);
  }

  method RustBuildQuadratic() returns (builder: RustGraph.Builder)
    ensures fresh(builder) && builder.Valid()
    ensures builder.AsGraph() == QuadraticGraph() && builder.constraints == []
  {
    builder := new RustGraph.Builder();
    var x := builder.Init();
    var xSquared := builder.Mul(x, x);
    assert x.id == 0 && xSquared.id == 1;
    var five := builder.Constant(5);
    var xSquaredPlusX := builder.Add(xSquared, x);
    assert five.id == 2 && xSquaredPlusX.id == 3;
    var result := builder.Add(xSquaredPlusX, five);
  }

  /** The Rust quadratic test: node 4 holds 17 and the (empty) constraint
      list holds. */
  method RustQuadratic() returns (y: U32, satisfied: bool)
    ensures y == 17 && satisfied
  {
    var builder := RustBuildQuadratic();
    QuadraticEval();
    var r := builder.FillNodes(map[0 := 3]);
    assert r.Ok?;
    var values := r.value;
    assert values[4] == Eval(QuadraticGraph(), map[0 := 3], 4);
    y := if 4 in values then values[4] else 0;
    satisfied := builder.CheckConstraints(values);
  }

  // ---------------------------------------------------------------------
  // c = (a + 1) / 8 by a hint, checked by c * 8 == a + 1

  /** The division hint: the value of node `b` divided by 8, or 0 when `b`
      has no value (Go's zero value for a missing key, Rust's
      `unwrap_or(&0)`). */
  function DivideBy8(b: NodeId): HintFn
  {
    (v: Valuation) => if b in v then v[b] / 8 else 0
  }

  /** The division circuit: a, 1, b = a + 1, 8, the hint c = b / 8, and
      c * 8. */
  function DivisionGraph(): Graph
  {
    map[0 := Input, 1 := Constant(1), 2 := Add(0, 1), 3 := Constant(8),
        4 := Hint([2], DivideBy8(2)), 5 := Mul(4, 3)]
  }

  /** Every node of the division circuit refers only to earlier nodes. */
  lemma DivisionTopological()
    ensures Topological(DivisionGraph())
  {
    var g := DivisionGraph();
    forall id | id in g ensures Below(g[id], id, g) {
      if id == 4 {
        assert g[4].deps == [2];
      }
    }
  }

  /** The reference values of the division circuit for any a below the
      wrap-around point: b = a + 1, the hint gives (a + 1) / 8 and the
      product gives that times 8, which is b rounded down to a multiple of
      8; the constraint therefore holds exactly when 8 divides a + 1. */
  lemma DivisionEval(a0: U32)
    requires a0 < MODULUS - 1
    ensures Topological(DivisionGraph()) && InputsSupplied(DivisionGraph(), map[0 := a0])
    ensures InputPins(DivisionGraph(), map[0 := a0]) == map[0 := a0]
    ensures Eval(DivisionGraph(), map[0 := a0], 2) == a0 + 1
    ensures Eval(DivisionGraph(), map[0 := a0], 4) == (a0 + 1) / 8
    ensures Eval(DivisionGraph(), map[0 := a0], 5) == (a0 + 1) / 8 * 8
    ensures Eval(DivisionGraph(), map[0 := a0], 5) == Eval(DivisionGraph(), map[0 := a0], 2) <==> (a0 + 1) % 8 == 0
  {
    DivisionTopological();
    var g, inputs := DivisionGraph(), map[0 := a0];
    assert InputPins(g, inputs) == inputs;
    assert Eval(g, inputs, 0) == a0;
    assert Eval(g, inputs, 2) == a0 + 1;
    DivisionHintEval(a0);
  }

  /** The hint node and the product node of the division circuit, given
      the value of b. */
  lemma DivisionHintEval(a0: U32)
    requires a0 < MODULUS - 1
    requires Topological(DivisionGraph())
    requires Eval(DivisionGraph(), map[0 := a0], 2) == a0 + 1
    ensures Eval(DivisionGraph(), map[0 := a0], 4) == (a0 + 1) / 8
    ensures Eval(DivisionGraph(), map[0 := a0], 5) == (a0 + 1) / 8 * 8
  {
    var g, inputs := DivisionGraph(), map[0 := a0];
    EvalSingleDepHint(g, inputs, 4);
    var q := (a0 + 1) / 8;
    assert Eval(g, inputs, 4) == DivideBy8(2)(map[2 := a0 + 1]) == q;
    assert q * 8 <= a0 + 1;
    assert Eval(g, inputs, 5) == WrappingMul(q, 8) == q * 8;
  }

  /** The filled values of the division circuit for a = 15 and a = 1. */
  lemma DivisionValues(a0: U32, values: Valuation)
    requires a0 == 15 || a0 == 1
    requires values == map[0 := a0] + Resolution(DivisionGraph(), map[0 := a0])
    ensures 2 in values && 4 in values && 5 in values
    ensures a0 == 15 ==> values[2] == 16 && values[4] == 2 && values[5] == 16
    ensures a0 == 1 ==> values[2] == 2 && values[4] == 0 && values[5] == 0
  {
    DivisionEval(a0);
  }

  method GoBuildDivision() returns (builder: GoGraph.Builder)
    ensures fresh(builder) && builder.Valid()
    ensures builder.Nodes == DivisionGraph() && builder.Constraints == [Constraint(5, 2)]
  {
    builder := new GoGraph.Builder();
    var a := builder.Init();
    var one := builder.Constant(1);
    var b := builder.Add(a, one);
    assert a == 0 && one == 1 && b == 2;
    var eight := builder.Constant(8);
    var c := builder.Hint([b], DivideBy8(b));
    var cTimes8 := builder.Mul(c, eight);
    assert eight == 3 && c == 4 && cTimes8 == 5;
    builder.AssertEqual(cTimes8, b);
  }

  /** The Go division test: a = 15 gives c = 2 and the constraint holds. */
  method GoDivision() returns (c0: U32, satisfied: bool)
    ensures c0 == 2 && satisfied
  {
    var builder := GoBuildDivision();
    DivisionEval(15);
    var r := builder.FillNodes(map[0 := 15]);
    assert r.Ok?;
    var values := r.value;
    DivisionValues(15, values);
    c0 := if 4 in values then values[4] else 0;
    satisfied := builder.CheckConstraints(values);
  }

  /** The same circuit with a = 1: the hint gives 0, evaluation still
      succeeds, and only the constraint check exposes that 0 * 8 != 2. */
  method GoDivisionWrongHint() returns (c0: U32, satisfied: bool)
    ensures c0 == 0 && !satisfied
  {
    var builder := GoBuildDivision();
    DivisionEval(1);
    var r := builder.FillNodes(map[0 := 1]);
    assert r.Ok?;
    var values := r.value;
    DivisionValues(1, values);
    c0 := if 4 in values then values[4] else 0;
    satisfied := builder.CheckConstraints(values);
    assert !Holds(builder.Constraints[0], values);
  }

  method RustBuildDivision() returns (builder: RustGraph.Builder)
    ensures fresh(builder) && builder.Valid()
    ensures builder.AsGraph() == DivisionGraph() && builder.constraints == [Constraint(5, 2)]
  {
    builder := new RustGraph.Builder();
    var a := builder.Init();
    var one := builder.Constant(1);
    var b := builder.Add(a, one);
    assert a.id == 0 && one.id == 1 && b.id == 2;
    var eight := builder.Constant(8);
    var c := builder.Hint([b], DivideBy8(b.id));
    assert c.nodeType.deps == [2];
    var cTimes8 := builder.Mul(c, eight);
    assert eight.id == 3 && c.id == 4 && cTimes8.id == 5;
    builder.AssertEqual(cTimes8, b);
  }

  /** The Rust division test: node 4 holds 2 and the constraint holds. */
  method RustDivision() returns (c0: U32, satisfied: bool)
    ensures c0 == 2 && satisfied
  {
    var builder := RustBuildDivision();
    DivisionEval(15);
    var r := builder.FillNodes(map[0 := 15]);
    assert r.Ok?;
    var values := r.value;
    DivisionValues(15, values);
    c0 := if 4 in values then values[4] else 0;
    satisfied := builder.CheckConstraints(values);
  }

  // ---------------------------------------------------------------------
  // Arithmetic wraps at 2^32

  /** 0xFFFFFFFF + 2: a sum of two constants past the 32-bit range. */
  function WrapGraph(): Graph
  {
    map[0 := Constant(0xFFFF_FFFF), 1 := Constant(2), 2 := Add(0, 1)]
  }

  /** The sum wraps to 1. */
  lemma WrapEval()
    ensures Topological(WrapGraph()) && InputsSupplied(WrapGraph(), map[])
    ensures InputPins(WrapGraph(), map[]) == map[]
    ensures Eval(WrapGraph(), map[], 2) == 1
  {
    var g := WrapGraph();
    assert Below(g[2], 2, g);
    assert InputPins(g, map[]) == map[];
    assert Eval(g, map[], 2) == WrappingAdd(0xFFFF_FFFF, 2) == 1;
  }

  method RustBuildWrap() returns (builder: RustGraph.Builder)
    ensures fresh(builder) && builder.Valid()
    ensures builder.AsGraph() == WrapGraph()
  {
    builder := new RustGraph.Builder();
    var big := builder.Constant(0xFFFF_FFFF);
    var two := builder.Constant(2);
    assert big.id == 0 && two.id == 1;
    var total := builder.Add(big, two);
  }

  /** 0xFFFFFFFF + 2 evaluates to 1: the Rust evaluator's sum wraps. */
  method RustWrapAround() returns (sum: U32)
    ensures sum == 1
  {
    var builder := RustBuildWrap();
    WrapEval();
    var r := builder.FillNodes(map[]);
    assert r.Ok?;
    assert r.value[2] == Eval(WrapGraph(), map[], 2);
    sum := if 2 in r.value then r.value[2] else 0;
  }

  // ---------------------------------------------------------------------
  // A supplied value for a non-Input node

  /** A Constant node 0 holding 5, supplied with the value 7: the Go
      evaluator keeps the supplied 7, the Rust evaluator overwrites it with
      5. */
  method SuppliedConstant() returns (goValue: U32, rustValue: U32)
    ensures goValue == 7 && rustValue == 5
  {
    var goBuilder := new GoGraph.Builder();
    var goNode := goBuilder.Constant(5);
    var rustBuilder := new RustGraph.Builder();
    var rustNode := rustBuilder.Constant(5);
    PinsDiffer();
    assert goBuilder.Nodes == map[0 := Constant(5)];
    assert rustBuilder.AsGraph() == map[0 := Constant(5)];
    var goResult := goBuilder.FillNodes(map[0 := 7]);
    var rustResult := rustBuilder.FillNodes(map[0 := 7]);
    assert goResult.Ok? && rustResult.Ok?;
    goValue := if 0 in goResult.value then goResult.value[0] else 0;
    rustValue := if 0 in rustResult.value then rustResult.value[0] else 0;
  }

  // ---------------------------------------------------------------------
  // Handles from another builder

  /** An Add node whose parent handle carries the node's own ID, as a
      handle from another builder can: no sweep ever values it, so the Go
      evaluator reports "unable to compute". */
  method GoSelfReference() returns (failed: bool)
    ensures failed
  {
    var builder := new GoGraph.Builder();
    var sum := builder.Add(0, 0);
    assert builder.Nodes == map[0 := Add(0, 0)];
    var r := builder.FillNodes(map[]);
    var none: Valuation := map[];
    assert 0 in builder.Nodes && 0 !in none;
    assert Stuck(builder.Nodes, none);
    failed := r.Err?;
  }

  /** The values the Rust pass leaves on the forward-reference graph with
      5 supplied for node 1. */
  lemma ForwardValues(values: Valuation)
    requires RustGraph.PassValues(ForwardNodes(), map[1 := 5], values, 2)
    ensures 0 in values && values[0] == 10
    ensures 1 in values && values[1] == 3
  {
    var nodes, inputs := ForwardNodes(), map[1 := 5];
    assert RustGraph.PassedAt(nodes, inputs, values, 0);
    assert RustGraph.PassedAt(nodes, inputs, values, 1);
    assert RustGraph.Snapshot(inputs, values, 0) == inputs;
  }

  /** Node 0 adds node 1 to itself; node 1 is the Constant 3. */
  function ForwardNodes(): seq<RustGraph.Node>
  {
    [RustGraph.Node(0, Add(1, 1)), RustGraph.Node(1, Constant(3))]
  }

  /** The Rust builder given a handle from elsewhere that names ID 1, the
      ID its next node then takes. */
  method RustBuildForward() returns (builder: RustGraph.Builder)
    ensures fresh(builder) && builder.Valid() && builder.nodes == ForwardNodes()
  {
    builder := new RustGraph.Builder();
    var foreign := RustGraph.Node(1, Constant(3));
    var add := builder.Add(foreign, foreign);
    var three := builder.Constant(3);
    assert add.id == 0 && three.id == 1;
  }

  /** An Add node whose operand handle names the node created after it: the
      Rust pass reads the supplied entry 5 for that ID, giving 10, and the
      later Constant node then overwrites the entry with 3. */
  method RustForwardReference() returns (sum: U32, later: U32)
    ensures sum == 10 && later == 3
  {
    var builder := RustBuildForward();
    var inputs: Valuation := map[1 := 5];
    var r := builder.FillNodes(inputs);
    assert r.Ok?;
    var values := r.value;
    ForwardValues(values);
    sum := if 0 in values then values[0] else 0;
    later := if 1 in values then values[1] else 0;
  }
}
